=== FILE: README.md ===
# util-async-task: counting gate, retry loop and dispatcher

This project models the sequential core of a small Java concurrency utility:

- **`CountLatchUtil`**, a counter with an optional ceiling (`maxCount`). `countUp` waits while the count is at or above the ceiling (a negative ceiling admits nothing). `countDown` does nothing at zero. `await` waits for zero. `getCount` reads the count, and `close` warns when the count is positive. Module `CountLatch` models the counter as an immutable `Gate` value. Each call is one atomic step. A call that would wait is a step that is not enabled. The three `signalAll` calls, on the two condition queues, are recorded as `Signals` flags in each step's result.
- **The retry loop of `AsyncTaskUtil.submitTask`**. Module `TaskLoop` models it as a pure function of the retry settings and the sequence of outcomes of successive runs (`Ok` or `Fail`). Its result gives the number of runs, each sleep in milliseconds, whether the last run succeeded, and whether the error line is logged.
- **`AsyncTaskUtil`** as a dispatcher (module `AsyncTask`). A submission is one gate `countUp` plus a pending task. A worker finishing a task's retry loop is one gate `countDown`. The main invariant: while the pool is open, the gate's count equals submitted minus finished tasks; the count never exceeds `maxConcurrency`.
- **`RetryLogic`**, a value type with two fields: a retry count (default 3) and a wait time (default 10 000 ms). Module `Retry` models it. Nothing in `AsyncTaskUtil` uses it.

Java `int` is modelled as `JavaInt.int32`. The gate's `count++` wraps at `Integer.MAX_VALUE`, as in Java. This can only happen on a gate without a ceiling.

Where the code and its documentation disagree, the model follows the code:

- `maxAttempts` is documented as a retry count (0 means no retry). The loop actually runs the task at most `max(1, maxAttempts)` times in total, and exactly that often when every run fails, so 0 and 1 both mean one run.
- There is a sleep after every failed run, including the last one.
- The error is logged whenever any run failed, even if a later run succeeded, because the recorded error is never cleared.
- `submitTask(task)` retries without limit. It does not mean "no retry".
- The dispatcher's pending table is bookkeeping added by the model so that the gate count can be related to outstanding tasks.

Two behaviours come from the Java runtime rather than this code:

- `Executors.newFixedThreadPool` refuses a pool size that is not positive, so `AsyncTask.Build` returns `None` for such a size.
- A shut-down `ExecutorService` refuses `submit`. In `submitTask` this happens after `countUp` has already run, so a submission after `close` leaves the count raised with no task to lower it. `AsyncTask.SubmitAfterCloseStrandsCount` states this.

## Model

| member | source | states |
|---|---|---|
| CountLatch.Build | src/main/java/sunyu/util/CountLatchUtil.java:29-59 | a new gate has count 0 and the configured ceiling; it satisfies the invariant, and `await` passes at once |
| CountLatch.CountUp | src/main/java/sunyu/util/CountLatchUtil.java:75-95 | allowed only when there is no ceiling or the count is below it; adds exactly one (Java `int` wrap at the top); wakes zero-waiters iff the count was 0; never wakes producers |
| CountLatch.CountDown | src/main/java/sunyu/util/CountLatchUtil.java:100-116 | a non-positive count is left unchanged with no wake-up; otherwise subtracts exactly one; wakes zero-waiters iff the count was 1; wakes producers iff there is a ceiling and the new count is below it |
| CountLatch.Apply | src/main/java/sunyu/util/CountLatchUtil.java:66-149 | a call waits exactly when it is `countUp` at or above the ceiling or `await` at a non-zero count; an enabled `countUp`/`countDown` has exactly the effect and wake-ups of `CountUp`/`CountDown`; `await`, `getCount` and `close` change nothing; `getCount` returns the count; `close` warns iff the count is positive |
| CountLatch.ApplyPreservesValid | src/main/java/sunyu/util/CountLatchUtil.java:78-106 | every enabled call keeps `0 <= count` and `count <= max(0, maxCount)` (with no ceiling, `countUp` needs the count below `Integer.MAX_VALUE`) |
| CountLatch.RunPreservesValid | src/main/java/sunyu/util/CountLatchUtil.java:75-149 | on a gate with a ceiling, any sequence of calls keeps the invariant |
| CountLatch.UnboundedCountUpWraps | src/main/java/sunyu/util/CountLatchUtil.java:88 | on a gate with no ceiling, `countUp` at `Integer.MAX_VALUE` makes the count negative |
| CountLatch.UpThenDownRestores | src/main/java/sunyu/util/CountLatchUtil.java:75-116 | when `countUp` is enabled on a valid gate whose count is below `Integer.MAX_VALUE`, `countUp` then `countDown` gives back the original state |
| CountLatch.NoLostWakeup | src/main/java/sunyu/util/CountLatchUtil.java:89-112 | a call that makes a waiter's condition true signals that waiter's condition queue |
| CountLatch.SignalsAreSound | src/main/java/sunyu/util/CountLatchUtil.java:89-112 | only `countUp`/`countDown` signal; a wake-up to producers always finds room; zero-waiters woken by `countDown` find zero, while those woken by `countUp` find one and go back to waiting |
| Retry.Default | src/main/java/sunyu/util/RetryLogic.java:12-22 | the default value has 3 retries and a wait time of 10 000 ms |
| Retry.WithRetry | src/main/java/sunyu/util/RetryLogic.java:29-31 | sets the retry count and keeps the default wait time |
| Retry.WithRetryAndWait | src/main/java/sunyu/util/RetryLogic.java:39-42 | sets both fields exactly |
| Retry.GetRetry | src/main/java/sunyu/util/RetryLogic.java:44-46 | returns the stored retry count: storing it back with `setRetry` changes nothing |
| Retry.GetWaitTime | src/main/java/sunyu/util/RetryLogic.java:52-54 | returns the stored wait time: storing it back with `setWaitTime` changes nothing |
| Retry.SetRetry | src/main/java/sunyu/util/RetryLogic.java:48-50 | the stored retry count becomes the new one, and the wait time is unchanged |
| Retry.SetWaitTime | src/main/java/sunyu/util/RetryLogic.java:56-58 | the stored wait time becomes the new one, and the retry count is unchanged |
| Retry.ConstructorsAgree | src/main/java/sunyu/util/RetryLogic.java:12-42 | the shorter constructors are the two-argument constructor with the defaults filled in; `RetryLogic(r)` is the default value after `setRetry(r)` |
| Retry.GettersDetermineValue | src/main/java/sunyu/util/RetryLogic.java:44-54 | two values whose getters agree are equal |
| Retry.SettersIndependent | src/main/java/sunyu/util/RetryLogic.java:44-58 | the two setters commute, the last write wins, and storing what a getter returns changes nothing |
| TaskLoop.Loop | src/main/java/sunyu/util/AsyncTaskUtil.java:114-129 | when the loop ends, it ran at least once and only on the given outcomes; every run before the last failed and let the loop continue; it succeeded iff the last run was `Ok`; a final failure exhausted the limit; there is one sleep of `sleepMillis` (or 1000) per failure; the error flag is set iff it was already set or some run in this stretch failed |
| TaskLoop.RunTask | src/main/java/sunyu/util/AsyncTaskUtil.java:112-133 | from a fresh start, the task runs at least once; it succeeded iff its last run was `Ok`; the error is logged iff there was more than one run or the only run failed |
| TaskLoop.ErrorLoggedIffSomeRunFailed | src/main/java/sunyu/util/AsyncTaskUtil.java:112-133 | the error is logged iff some executed run failed, even when a later run succeeded |
| TaskLoop.LoopCharacterised | src/main/java/sunyu/util/AsyncTaskUtil.java:114-129 | if run `k` is the first success within the `max(1, N)` budget, or the budget's last run after only failures, then the loop ends there with `k+1` runs, one sleep per failure, and the error logged iff some run failed |
| TaskLoop.LoopEndsAtLastRun | src/main/java/sunyu/util/AsyncTaskUtil.java:114-129 | whenever the loop ends, its last run is one that the budget-based description allows |
| TaskLoop.TerminatesIff | src/main/java/sunyu/util/AsyncTaskUtil.java:129 | the loop ends iff the outcomes contain a run that the budget-based description allows |
| TaskLoop.AlwaysFailingRuns | src/main/java/sunyu/util/AsyncTaskUtil.java:114-129 | with `maxAttempts = N` and only failures, the task runs exactly `max(1, N)` times, sleeps after each run including the last, and the error is logged |
| TaskLoop.ZeroAndOneAttemptsAgree | src/main/java/sunyu/util/AsyncTaskUtil.java:121-129 | limits 0 and 1 behave the same on every outcome sequence |
| TaskLoop.StopsAtFirstSuccess | src/main/java/sunyu/util/AsyncTaskUtil.java:115-129 | a first success at run `k` within the budget ends the loop after `k+1` runs with `k` sleeps; the error is logged iff `k > 0`, even though the task succeeded |
| TaskLoop.UnlimitedEndsOnlyOnSuccess | src/main/java/sunyu/util/AsyncTaskUtil.java:129 | with `maxAttempts = null` the loop ends iff some run succeeds, and it ends at the first success |
| AsyncTask.Build | src/main/java/sunyu/util/AsyncTaskUtil.java:25-31 | a positive pool size gives a dispatcher whose gate has that size as its ceiling and starts at zero, satisfying the invariant; a non-positive size is refused |
| AsyncTask.BuildDefault | src/main/java/sunyu/util/AsyncTaskUtil.java:33-38 | by default `maxConcurrency` is 10 and the gate's ceiling is 10; the dispatcher is open, its gate is fresh (count 0) and nothing is pending |
| AsyncTask.SubmitTask | src/main/java/sunyu/util/AsyncTaskUtil.java:110-135 | waits exactly when the gate is full; otherwise does exactly one `countUp`, leaving the gate's ceiling, the pool size, the finished count and the open/shut-down state as they were; an open pool records the task with its settings under the next fresh identity, which then advances by one, while a shut-down pool rejects it and leaves the pending tasks and identities as they were |
| AsyncTask.SubmitTaskDefault | src/main/java/sunyu/util/AsyncTaskUtil.java:89-91 | is the three-argument form with `(null, null)`, so it inherits its whole contract, frame included: waits exactly when the gate is full, otherwise one `countUp`; accepted iff the pool is open, under the next fresh identity, recorded with unlimited retries and the default sleep |
| AsyncTask.SubmitTaskWithAttempts | src/main/java/sunyu/util/AsyncTaskUtil.java:99-101 | is the three-argument form with `(maxAttempts, null)`, so it inherits its whole contract, frame included: waits exactly when the gate is full, otherwise one `countUp`; accepted iff the pool is open, under the next fresh identity, recorded with the given limit and the default sleep |
| AsyncTask.FinishTask | src/main/java/sunyu/util/AsyncTaskUtil.java:113-134 | finishes exactly when the task's retry loop ends and reports that loop's result; removes the task, counts one more finished task, and does one `countDown`; the gate's ceiling, the pool size, the identities and the open/shut-down state are unchanged |
| AsyncTask.GetCount | src/main/java/sunyu/util/AsyncTaskUtil.java:80-82 | returns exactly what the gate's `getCount` reads |
| AsyncTask.AwaitAllTasks | src/main/java/sunyu/util/AsyncTaskUtil.java:140-142 | passes iff the count is zero, changes nothing, and so passes again at once when called twice |
| AsyncTask.Close | src/main/java/sunyu/util/AsyncTaskUtil.java:68-73 | completes only once the count is zero, and then only shuts down the pool |
| AsyncTask.SubmitPreservesInv | src/main/java/sunyu/util/AsyncTaskUtil.java:110-113 | submission keeps the invariant, and an accepted task gets an identity not already pending |
| AsyncTask.FinishPreservesInv | src/main/java/sunyu/util/AsyncTaskUtil.java:113-134 | finishing a task keeps the invariant |
| AsyncTask.PerformPreservesInv | src/main/java/sunyu/util/AsyncTaskUtil.java:68-142 | every event that can happen keeps the invariant |
| AsyncTask.PerformAllPreservesInv | src/main/java/sunyu/util/AsyncTaskUtil.java:68-142 | every history of events keeps the invariant |
| AsyncTask.CountIsOutstandingTasks | src/main/java/sunyu/util/AsyncTaskUtil.java:80-82 | `getCount` lies between 0 and `maxConcurrency`; while the pool is open it equals submitted minus finished tasks, which is the number of pending tasks |
| AsyncTask.SubmitWaitsIffSaturated | src/main/java/sunyu/util/AsyncTaskUtil.java:111 | on an open dispatcher, submission waits exactly when `maxConcurrency` tasks are outstanding |
| AsyncTask.FinishCountsDownOnce | src/main/java/sunyu/util/AsyncTaskUtil.java:130 | finishing a pending task lowers the count by exactly one, never by zero |
| AsyncTask.CloseWaitsForDrain | src/main/java/sunyu/util/AsyncTaskUtil.java:68-73 | `close` completes iff the count is zero; on an open dispatcher that means no task is pending |
| AsyncTask.SubmitAfterCloseStrandsCount | src/main/java/sunyu/util/AsyncTaskUtil.java:110-113 | after `close`, a submission is rejected but still raises the count, so `awaitAllTasks` waits for ever and no worker can lower the count |

## Left out

- Threads, locks and condition queues are not modelled. Each call is one atomic step, and waiting is a step that is not enabled. Fairness, liveness and spurious wake-ups are outside a sequential model.
- The `InterruptedException` paths of `countUp` and `await` are left out: they depend on a thread being interrupted.
- Sleeping is recorded as its millisecond value and takes no time.
- Logging is a flag: `errorLogged` for the error line and `warned` for `close` of the gate. The stack-trace text and the per-retry warning lines are left out.
- The builders are folded into the `Build` functions' parameters.
- The difference between `Exception` and `Error` is left out. An `Error` thrown by a task escapes the loop without a `countDown`, and that path is not modelled. Only `Ok`/`Fail` outcomes exist.
- The task itself is not modelled: the outcome of each of its runs is an input.
- Which worker finishes which task, and when, is not modelled either: `Finish` events pick the task.
- The loop's `attempts` counter is a mathematical integer. With a limit it never exceeds `max(1, limit)` (reaching that ends the loop), so it cannot overflow. With no limit it would wrap after 2^31−1 failures; the loop condition then never reads it, and the only other reader is the per-retry warning line, which is left out.
- src/test/java/sunyu/util/test/TestUtil.java has no assertions, so there is nothing in it to state.
- CountLatch.ApplyPreservesValid: on a gate without a ceiling, it needs the count to be below `Integer.MAX_VALUE` before `countUp`, because Java's `int` wraps there (`CountLatch.UnboundedCountUpWraps`).
- CountLatch.RunPreservesValid: covers only gates with a ceiling, which is what the dispatcher builds, for the same wrap-around reason.

=== FILE: async_task.dfy ===
/**
 * The task dispatcher: a worker pool whose admission is a counting gate with
 * the pool's size as its ceiling. Submitting counts the gate up and records a
 * pending task; a worker finishing the task's retry loop counts the gate down.
 * Workers and their scheduling are not modelled: which pending task finishes
 * next, and with which outcomes, are inputs.
 */
module AsyncTask {

  import opened Wrappers
  import opened JavaInt
  import CountLatch
  import opened TaskLoop

  const DefaultMaxConcurrency: int32 := 10

  /** The retry settings a task was submitted with (`None`: the Java `null`). */
  datatype TaskConfig = TaskConfig(maxAttempts: Option<int32>, sleepMillis: Option<int32>)

  /**
   * The dispatcher: its pool size, its gate, the tasks submitted and not yet
   * finished (by identity), the next identity to hand out, how many tasks have
   * finished, and whether the pool has been shut down.
   */
  datatype Dispatcher = Dispatcher(
    maxConcurrency: int32,
    gate: CountLatch.Gate,
    pending: map<nat, TaskConfig>,
    nextId: nat,
    finished: nat,
    closed: bool)

  /**
   * The bookkeeping invariant: the gate's ceiling is the pool size, the gate
   * is valid, every task is counted as submitted and either pending or
   * finished, and while the pool is open the gate counts exactly the pending
   * tasks. A closed dispatcher has no pending task.
   */
  predicate Inv(d: Dispatcher)
  {
    && 0 < d.maxConcurrency
    && d.gate.maxCount == Some(d.maxConcurrency)
    && CountLatch.Valid(d.gate)
    && (forall id | id in d.pending :: id < d.nextId)
    && |d.pending| + d.finished == d.nextId
    && (!d.closed ==> d.gate.count == |d.pending|)
    && (d.closed ==> |d.pending| == 0)
  }

  /** Construction; `None` when the fixed-size pool refuses a size that is not positive. */
  function Build(maxConcurrency: int32): (d: Option<Dispatcher>)
    ensures d.Some? <==> 0 < maxConcurrency
    ensures d.Some? ==> Inv(d.value) && !d.value.closed
    ensures d.Some? ==> d.value.gate == CountLatch.Build(Some(maxConcurrency)) && |d.value.pending| == 0
  {
    if maxConcurrency <= 0 then
      None
    else
      Some(Dispatcher(maxConcurrency, CountLatch.Build(Some(maxConcurrency)), map[], 0, 0, false))
  }

  /** The builder left at its default: a pool of ten with a gate of ten. */
  function BuildDefault(): (d: Option<Dispatcher>)
    ensures d.Some? && Inv(d.value)
    ensures d.value.maxConcurrency == 10 && d.value.gate.maxCount == Some(10)
    ensures !d.value.closed && d.value.gate == CountLatch.Build(Some(10)) && |d.value.pending| == 0
  {
    Build(DefaultMaxConcurrency)
  }

  /** The result of a submission: accepted under a fresh identity, or refused by a shut-down pool. */
  datatype Submission = Submitted(d: Dispatcher, id: nat) | Rejected(d: Dispatcher)

  /**
   * `submitTask(task, maxAttempts, sleepMillis)`: one `countUp` on the
   * caller's thread, then the hand-over to the pool. `None` when the gate is
   * full and the caller waits. A shut-down pool refuses the hand-over after
   * the count was already taken.
   */
  function SubmitTask(d: Dispatcher, maxAttempts: Option<int32>, sleepMillis: Option<int32>): (r: Option<Submission>)
    ensures r.None? <==> !CountLatch.CanCountUp(d.gate)
    ensures r.Some? ==> (r.value.Submitted? <==> !d.closed)
    ensures r.Some? ==> r.value.d.gate.count == Wrap(d.gate.count + 1)
    ensures r.Some? && r.value.Submitted? ==>
      r.value.d.pending == d.pending[r.value.id := TaskConfig(maxAttempts, sleepMillis)]
    ensures r.Some? && r.value.Rejected? ==> r.value.d.pending == d.pending && r.value.d.nextId == d.nextId
    ensures r.Some? && r.value.Submitted? ==> r.value.id == d.nextId && r.value.d.nextId == d.nextId + 1
    ensures r.Some? ==>
      && r.value.d.gate.maxCount == d.gate.maxCount
      && r.value.d.maxConcurrency == d.maxConcurrency
      && r.value.d.finished == d.finished
      && r.value.d.closed == d.closed
  {
    if !CountLatch.CanCountUp(d.gate) then
      None
    else
      var gate := CountLatch.CountUp(d.gate).gate;
      if d.closed then
        Some(Rejected(d.(gate := gate)))
      else
        var id := d.nextId;
        Some(Submitted(d.(gate := gate, pending := d.pending[id := TaskConfig(maxAttempts, sleepMillis)], nextId := id + 1), id))
  }

  /** `submitTask(task)`: retry without limit, pausing the default second. */
  function SubmitTaskDefault(d: Dispatcher): (r: Option<Submission>)
    ensures r == SubmitTask(d, None, None)
    ensures r.None? <==> !CountLatch.CanCountUp(d.gate)
    ensures r.Some? ==> (r.value.Submitted? <==> !d.closed) && r.value.d.gate.count == Wrap(d.gate.count + 1)
    ensures r.Some? && r.value.Submitted? ==> r.value.id == d.nextId
    ensures r.Some? && r.value.Rejected? ==> r.value.d.pending == d.pending
    ensures r.Some? && r.value.Submitted? ==>
      r.value.id in r.value.d.pending && r.value.d.pending[r.value.id] == TaskConfig(None, None)
  {
    SubmitTask(d, None, None)
  }

  /** `submitTask(task, maxAttempts)`: the given limit, pausing the default second. */
  function SubmitTaskWithAttempts(d: Dispatcher, maxAttempts: Option<int32>): (r: Option<Submission>)
    ensures r == SubmitTask(d, maxAttempts, None)
    ensures r.None? <==> !CountLatch.CanCountUp(d.gate)
    ensures r.Some? ==> (r.value.Submitted? <==> !d.closed) && r.value.d.gate.count == Wrap(d.gate.count + 1)
    ensures r.Some? && r.value.Submitted? ==> r.value.id == d.nextId
    ensures r.Some? && r.value.Rejected? ==> r.value.d.pending == d.pending
    ensures r.Some? && r.value.Submitted? ==>
      r.value.id in r.value.d.pending && r.value.d.pending[r.value.id] == TaskConfig(maxAttempts, None)
  {
    SubmitTask(d, maxAttempts, None)
  }

  /** What finishing a task yields: the dispatcher afterwards and the report of the task's loop. */
  datatype Completion = Completion(d: Dispatcher, report: LoopEnd)

  /**
   * A worker runs pending task `id` through its retry loop with the given
   * outcomes, then performs the one `countDown`. `None` when the outcomes run
   * out before the loop ends, so the task is still running.
   */
  function FinishTask(d: Dispatcher, id: nat, outcomes: seq<Attempt>): (r: Option<Completion>)
    requires id in d.pending
    ensures var cfg := d.pending[id];
      r.Some? <==> RunTask(cfg.maxAttempts, cfg.sleepMillis, outcomes).Some?
    ensures r.Some? ==> Some(r.value.report) == RunTask(d.pending[id].maxAttempts, d.pending[id].sleepMillis, outcomes)
    ensures r.Some? ==> r.value.d.pending == d.pending - {id} && r.value.d.finished == d.finished + 1
    ensures r.Some? && 0 < d.gate.count ==> r.value.d.gate.count == d.gate.count - 1
    ensures r.Some? ==> r.value.d.gate.maxCount == d.gate.maxCount && r.value.d.nextId == d.nextId
    ensures r.Some? ==> r.value.d.closed == d.closed && r.value.d.maxConcurrency == d.maxConcurrency
  {
    var cfg := d.pending[id];
    match RunTask(cfg.maxAttempts, cfg.sleepMillis, outcomes)
    case None => None
    case Some(report) =>
      Some(Completion(d.(gate := CountLatch.CountDown(d.gate).gate, pending := d.pending - {id}, finished := d.finished + 1), report))
  }

  /** `getCount`: what the gate's `getCount` returns. */
  function GetCount(d: Dispatcher): (n: int32)
    ensures CountLatch.Apply(d.gate, CountLatch.GetCount).value.reading == Some(n)
  {
    d.gate.count
  }

  /** `awaitAllTasks`: the gate's `await`; `None` while tasks are outstanding. */
  function AwaitAllTasks(d: Dispatcher): (r: Option<Dispatcher>)
    ensures r.Some? <==> GetCount(d) == 0
    ensures r.Some? ==> r.value == d
  {
    if CountLatch.Apply(d.gate, CountLatch.Await).Some? then Some(d) else None
  }

  /** `close`: wait for all tasks, then shut the pool down. `None` while tasks are outstanding. */
  function Close(d: Dispatcher): (r: Option<Dispatcher>)
    ensures r.Some? <==> GetCount(d) == 0
    ensures r.Some? ==> r.value == d.(closed := true)
  {
    match AwaitAllTasks(d)
    case None => None
    case Some(d') => Some(d'.(closed := true))
  }

  /** Calls a client can make, and the completion of a pending task by a worker. */
  datatype Event =
    | Submit(maxAttempts: Option<int32>, sleepMillis: Option<int32>)
    | Finish(id: nat, outcomes: seq<Attempt>)
    | AwaitAll
    | CloseAll
    | Count

  /** One event; `None` when it cannot happen now (a caller would wait, no such task, or its loop is unfinished). */
  function Perform(d: Dispatcher, ev: Event): (r: Option<Dispatcher>)
  {
    match ev
    case Submit(maxAttempts, sleepMillis) =>
      (match SubmitTask(d, maxAttempts, sleepMillis)
       case None => None
       case Some(s) => Some(s.d))
    case Finish(id, outcomes) =>
      if id !in d.pending then None
      else
        (match FinishTask(d, id, outcomes)
         case None => None
         case Some(c) => Some(c.d))
    case AwaitAll => AwaitAllTasks(d)
    case CloseAll => Close(d)
    case Count => Some(d)
  }

  /** A history of events; `None` when some event in it cannot happen. */
  function PerformAll(d: Dispatcher, evs: seq<Event>): (r: Option<Dispatcher>)
    ensures r.Some? ==> r.value.maxConcurrency == d.maxConcurrency
    decreases |evs|
  {
    if |evs| == 0 then
      Some(d)
    else
      match Perform(d, evs[0])
      case None => None
      case Some(d') => PerformAll(d', evs[1..])
  }

  /** Submission keeps the invariant, and an accepted task gets an identity no pending task has. */
  lemma SubmitPreservesInv(d: Dispatcher, maxAttempts: Option<int32>, sleepMillis: Option<int32>)
    requires Inv(d)
    requires SubmitTask(d, maxAttempts, sleepMillis).Some?
    ensures Inv(SubmitTask(d, maxAttempts, sleepMillis).value.d)
    ensures var s := SubmitTask(d, maxAttempts, sleepMillis).value; s.Submitted? ==> s.id !in d.pending
  {

  }

  /** A finished task leaves the pending table and the invariant holds. */
  lemma FinishPreservesInv(d: Dispatcher, id: nat, outcomes: seq<Attempt>)
    requires Inv(d) && id in d.pending
    requires FinishTask(d, id, outcomes).Some?
    ensures Inv(FinishTask(d, id, outcomes).value.d)
  {

  }

  /** Every event that can happen keeps the invariant. */
  lemma PerformPreservesInv(d: Dispatcher, ev: Event)
    requires Inv(d)
    ensures Perform(d, ev).Some? ==> Inv(Perform(d, ev).value)
  {

  }

  /** The invariant holds after every history that starts from a built dispatcher. */
  lemma {:induction false} PerformAllPreservesInv(d: Dispatcher, evs: seq<Event>)
    requires Inv(d)
    ensures PerformAll(d, evs).Some? ==> Inv(PerformAll(d, evs).value)
    decreases |evs|
  {
    if |evs| > 0 && Perform(d, evs[0]).Some? {
      PerformPreservesInv(d, evs[0]);
      PerformAllPreservesInv(Perform(d, evs[0]).value, evs[1..]);
    }
  }

  /**
   * What the invariant means for a caller: the count never exceeds the pool
   * size, and while the pool is open it equals submitted minus finished tasks.
   */
  lemma CountIsOutstandingTasks(d: Dispatcher)
    requires Inv(d)
    ensures 0 <= GetCount(d) <= d.maxConcurrency
    ensures !d.closed ==> GetCount(d) == d.nextId - d.finished == |d.pending|
  {
  }

  /** While the pool is open, submission waits exactly when the pool size of tasks is outstanding. */
  lemma SubmitWaitsIffSaturated(d: Dispatcher, maxAttempts: Option<int32>, sleepMillis: Option<int32>)
    requires Inv(d) && !d.closed
    ensures SubmitTask(d, maxAttempts, sleepMillis).None? <==> |d.pending| == d.maxConcurrency
  {
  }

  /** Finishing a pending task of an open dispatcher takes exactly one off the count. */
  lemma FinishCountsDownOnce(d: Dispatcher, id: nat, outcomes: seq<Attempt>)
    requires Inv(d) && !d.closed && id in d.pending
    requires FinishTask(d, id, outcomes).Some?
    ensures GetCount(FinishTask(d, id, outcomes).value.d) == GetCount(d) - 1
  {

  }

  /** Closing waits exactly until no task is outstanding; on an open dispatcher that is an empty pending table. */
  lemma CloseWaitsForDrain(d: Dispatcher)
    requires Inv(d)
    ensures Close(d).Some? <==> GetCount(d) == 0
    ensures !d.closed ==> (Close(d).Some? <==> |d.pending| == 0)
  {
  }

  /**
   * A submission after `close` is refused by the pool, but the count it took is
   * never given back: from then on `awaitAllTasks` and `close` wait for ever.
   */
  lemma SubmitAfterCloseStrandsCount(d: Dispatcher, maxAttempts: Option<int32>, sleepMillis: Option<int32>)
    requires Inv(d) && d.closed
    requires SubmitTask(d, maxAttempts, sleepMillis).Some?
    ensures var s := SubmitTask(d, maxAttempts, sleepMillis).value;
      && s.Rejected?
      && GetCount(s.d) == GetCount(d) + 1
      && AwaitAllTasks(s.d).None?
      && forall ev: Event | ev.Finish? :: Perform(s.d, ev).None?
  {
  }
}

=== FILE: count_latch.dfy ===
/**
 * The counting gate: a counter with an optional ceiling. Every public
 * operation of the gate runs as one atomic step under its lock; a call that
 * would wait on a condition is modelled as a step that is not enabled.
 */
module CountLatch {

  import opened Wrappers
  import opened JavaInt

  /** The counter and the ceiling chosen when the gate was built (`None`: no ceiling). */
  datatype Gate = Gate(count: int32, maxCount: Option<int32>)

  /** Which of the two condition queues a step wakes with `signalAll`. */
  datatype Signals = Signals(zero: bool, max: bool)

  const Quiet := Signals(false, false)

  /** The state after a step together with the wake-ups it sent. */
  datatype Step = Step(gate: Gate, signals: Signals)

  /** The invariant of a gate: never negative, and never above a ceiling (a non-positive ceiling admits nothing). */
  predicate Valid(g: Gate)
  {
    && 0 <= g.count
    && (g.maxCount.Some? ==> g.count <= Max(0, g.maxCount.value))
  }

  /** `countUp` passes its wait loop exactly when there is room below the ceiling. */
  predicate CanCountUp(g: Gate)
  {
    g.maxCount.None? || g.count < g.maxCount.value
  }

  /** `await` passes its wait loop exactly when the count is zero. */
  predicate CanAwait(g: Gate)
  {
    g.count == 0
  }

  /** A freshly built gate. */
  function Build(maxCount: Option<int32>): (g: Gate)
    ensures g.count == 0 && g.maxCount == maxCount
    ensures Valid(g) && CanAwait(g)
  {
    Gate(0, maxCount)
  }

  /**
   * `countUp` once it is past its wait loop: the count grows by one (wrapping
   * like a Java `int` at the top of the range) and waiters for zero are woken
   * when the count has just left zero.
   */
  function CountUp(g: Gate): (s: Step)
    requires CanCountUp(g)
    ensures s.gate.maxCount == g.maxCount
    ensures g.count < MAX ==> s.gate.count == g.count + 1
    ensures g.count == MAX ==> s.gate.count == MIN
    ensures s.signals.zero <==> g.count == 0
    ensures !s.signals.max
  {
    var count := Wrap(g.count + 1);
    Step(g.(count := count), Signals(zero := count == 1, max := false))
  }

  /**
   * `countDown`: a no-op on a count that is not positive; otherwise the count
   * drops by one, producers are woken when the count is now below a ceiling,
   * and waiters for zero are woken when it reached zero.
   */
  function CountDown(g: Gate): (s: Step)
    ensures s.gate.maxCount == g.maxCount
    ensures g.count <= 0 ==> s == Step(g, Quiet)
    ensures 0 < g.count ==> s.gate.count == g.count - 1
    ensures s.signals.zero <==> g.count == 1
    ensures s.signals.max <==> 0 < g.count && g.maxCount.Some? && g.count - 1 < g.maxCount.value
  {
    if g.count <= 0 then
      Step(g, Quiet)
    else
      var count := g.count - 1;
      Step(g.(count := count), Signals(zero := count == 0, max := g.maxCount.Some? && count < g.maxCount.value))
  }

  /** The public operations of the gate. */
  datatype Op = Up | Down | Await | GetCount | Close

  /** What one call does: the new state, its wake-ups, what `getCount` returns, and whether `close` warns. */
  datatype Effect = Effect(gate: Gate, signals: Signals, reading: Option<int32>, warned: bool)

  /** One call, made atomically under the lock; `None` when the caller would be left waiting. */
  function Apply(g: Gate, op: Op): (e: Option<Effect>)
    ensures e.None? <==> (op == Up && !CanCountUp(g)) || (op == Await && !CanAwait(g))
    ensures e.Some? && (op == Await || op == GetCount || op == Close) ==> e.value.gate == g && e.value.signals == Quiet
    ensures e.Some? ==> (e.value.reading == if op == GetCount then Some(g.count) else None)
    ensures e.Some? ==> (e.value.warned <==> op == Close && 0 < g.count)
    ensures e.Some? && op == Up ==> CanCountUp(g) && e.value.gate == CountUp(g).gate && e.value.signals == CountUp(g).signals
    ensures e.Some? && op == Down ==> e.value.gate == CountDown(g).gate && e.value.signals == CountDown(g).signals
  {
    match op
    case Up =>
      if CanCountUp(g) then
        var s := CountUp(g);
        Some(Effect(s.gate, s.signals, None, false))
      else
        None
    case Down =>
      var s := CountDown(g);
      Some(Effect(s.gate, s.signals, None, false))
    case Await =>
      if CanAwait(g) then Some(Effect(g, Quiet, None, false)) else None
    case GetCount =>
      Some(Effect(g, Quiet, Some(g.count), false))
    case Close =>
      Some(Effect(g, Quiet, None, 0 < g.count))
  }

  /** A sequence of calls from one observer's point of view; `None` when some call in it would wait. */
  function Run(g: Gate, ops: seq<Op>): (r: Option<Gate>)
    ensures r.Some? ==> r.value.maxCount == g.maxCount
    decreases |ops|
  {
    if |ops| == 0 then
      Some(g)
    else
      match Apply(g, ops[0])
      case None => None
      case Some(e) => Run(e.gate, ops[1..])
  }

  /** Every enabled call keeps the invariant; on a gate without ceiling, `countUp` needs room below `Integer.MAX_VALUE`. */
  lemma ApplyPreservesValid(g: Gate, op: Op)
    requires Valid(g)
    requires op == Up && g.maxCount.None? ==> g.count < MAX
    ensures Apply(g, op).Some? ==> Valid(Apply(g, op).value.gate)
  {
  }

  /** On a gate with a ceiling, every sequence of calls keeps the invariant. */
  lemma {:induction false} RunPreservesValid(g: Gate, ops: seq<Op>)
    requires Valid(g) && g.maxCount.Some?
    ensures Run(g, ops).Some? ==> Valid(Run(g, ops).value)
    decreases |ops|
  {
    if |ops| > 0 && Apply(g, ops[0]).Some? {
      var e := Apply(g, ops[0]).value;
      ApplyPreservesValid(g, ops[0]);
      RunPreservesValid(e.gate, ops[1..]);
    }
  }

  /** Without a ceiling the counter is a plain Java `int`: one more `countUp` at the top wraps it negative. */
  lemma UnboundedCountUpWraps()
    ensures var s := CountUp(Gate(MAX, None)); s.gate.count == MIN && !Valid(s.gate)
  {
  }

  /** When `countUp` is enabled on a valid gate (below `Integer.MAX_VALUE`), a following `countDown` restores the state. */
  lemma UpThenDownRestores(g: Gate)
    requires Valid(g) && CanCountUp(g) && g.count < MAX
    ensures CountDown(CountUp(g).gate).gate == g
  {
  }

  /**
   * No lost wake-up: whenever a call makes a waiting caller's condition true,
   * that call signals the matching condition queue.
   */
  lemma NoLostWakeup(g: Gate, op: Op)
    requires Valid(g)
    requires Apply(g, op).Some?
    ensures var e := Apply(g, op).value;
      && (!CanAwait(g) && CanAwait(e.gate) ==> e.signals.zero)
      && (!CanCountUp(g) && CanCountUp(e.gate) ==> e.signals.max)
  {
  }

  /**
   * Wake-ups are sent only by `countUp` and `countDown`. A wake-up of producers
   * always finds room; a wake-up of zero waiters finds zero after `countDown`
   * but finds one after `countUp`, so those waiters re-check and keep waiting.
   */
  lemma SignalsAreSound(g: Gate, op: Op)
    requires Apply(g, op).Some?
    ensures var e := Apply(g, op).value;
      && (e.signals != Quiet ==> op == Up || op == Down)
      && (e.signals.max ==> CanCountUp(e.gate))
      && (e.signals.zero && op == Down ==> CanAwait(e.gate))
      && (e.signals.zero && op == Up ==> e.gate.count == 1)
  {
  }
}

=== FILE: java_int.dfy ===
/** Java's 32-bit `int`, as far as the counters and settings of this model need it. */
module JavaInt {

  const MIN: int := -0x8000_0000
  const MAX: int := 0x7fff_ffff
  const MODULUS: int := 0x1_0000_0000

  type int32 = x: int | MIN <= x <= MAX

  /** The two's-complement wrap-around that Java `int` arithmetic performs on overflow. */
  function Wrap(x: int): (r: int32)
    ensures MIN <= x <= MAX ==> r == x
    ensures x == MAX + 1 ==> r == MIN
  {
    (x - MIN) % MODULUS + MIN
  }

  function Max(a: int, b: int): (m: int)
    ensures a <= m && b <= m
    ensures m == a || m == b
  {
    if a >= b then a else b
  }
}

=== FILE: retry_logic.dfy ===
/**
 * The retry setting value type: a retry count and a wait time in
 * milliseconds, with defaults of three retries ten seconds apart.
 */
module Retry {

  import opened JavaInt

  const DefaultRetry: int32 := 3
  const DefaultWaitTime: int32 := 10_000

  datatype RetryLogic = RetryLogic(retry: int32, waitTime: int32)

  /** The no-argument constructor: both fields keep their initialisers. */
  function Default(): (l: RetryLogic)
    ensures GetRetry(l) == 3 && GetWaitTime(l) == 10_000
  {
    RetryLogic(DefaultRetry, DefaultWaitTime)
  }

  /** The one-argument constructor: the retry count is given, the wait time keeps its default. */
  function WithRetry(retry: int32): (l: RetryLogic)
    ensures GetRetry(l) == retry
    ensures GetWaitTime(l) == GetWaitTime(Default())
  {
    RetryLogic(retry, DefaultWaitTime)
  }

  /** The two-argument constructor: both fields are given. */
  function WithRetryAndWait(retry: int32, waitTime: int32): (l: RetryLogic)
    ensures GetRetry(l) == retry && GetWaitTime(l) == waitTime
  {
    RetryLogic(retry, waitTime)
  }

  /** `getRetry`: the retry count last stored by a constructor or `setRetry`. */
  function GetRetry(l: RetryLogic): (r: int32)
    ensures SetRetry(l, r) == l
  {
    l.retry
  }

  /** `getWaitTime`: the wait time last stored by a constructor or `setWaitTime`. */
  function GetWaitTime(l: RetryLogic): (w: int32)
    ensures SetWaitTime(l, w) == l
  {
    l.waitTime
  }

  /** Stores a new retry count; the wait time is untouched. */
  function SetRetry(l: RetryLogic, retry: int32): (l': RetryLogic)
    ensures l'.retry == retry
    ensures l'.waitTime == l.waitTime
  {
    l.(retry := retry)
  }

  /** Stores a new wait time; the retry count is untouched. */
  function SetWaitTime(l: RetryLogic, waitTime: int32): (l': RetryLogic)
    ensures l'.waitTime == waitTime
    ensures l'.retry == l.retry
  {
    l.(waitTime := waitTime)
  }

  /** The three constructors agree: the shorter ones fill in the defaults of the longest. */
  lemma ConstructorsAgree(retry: int32)
    ensures Default() == WithRetryAndWait(DefaultRetry, DefaultWaitTime)
    ensures WithRetry(retry) == WithRetryAndWait(retry, DefaultWaitTime)
    ensures WithRetry(retry) == SetRetry(Default(), retry)
  {
  }

  /** A value is determined by what its getters return. */
  lemma GettersDetermineValue(a: RetryLogic, b: RetryLogic)
    requires GetRetry(a) == GetRetry(b) && GetWaitTime(a) == GetWaitTime(b)
    ensures a == b
  {
  }

  /** The two setters touch different fields, so their order does not matter and the last write wins. */
  lemma SettersIndependent(l: RetryLogic, r1: int32, r2: int32, w1: int32, w2: int32)
    ensures SetWaitTime(SetRetry(l, r1), w1) == SetRetry(SetWaitTime(l, w1), r1)
    ensures SetRetry(SetRetry(l, r1), r2) == SetRetry(l, r2)
    ensures SetWaitTime(SetWaitTime(l, w1), w2) == SetWaitTime(l, w2)
    ensures SetRetry(l, GetRetry(l)) == l && SetWaitTime(l, GetWaitTime(l)) == l
  {
  }
}

=== FILE: task_loop.dfy ===
/**
 * The retry loop a worker runs for one submitted task. The task's behaviour
 * is an input: the outcome of each successive run, `Ok` when it returned and
 * `Fail` when it threw. Sleeping becomes a recorded sleep of so many
 * milliseconds, and logging becomes a flag.
 */
module TaskLoop {

  import opened Wrappers
  import opened JavaInt

  /** How one run of the task ended. */
  datatype Attempt = Ok | Fail

  /** The pause after a failed run when no interval was given. */
  const DefaultSleepMillis: int32 := 1000

  /**
   * How the loop ended: how many times the task ran, the sleeps in order,
   * whether the last run succeeded, and whether the error line is logged.
   */
  datatype LoopEnd = LoopEnd(runs: nat, sleeps: seq<int32>, succeeded: bool, errorLogged: bool)

  /** The do-while condition, checked after a failure has been counted. */
  predicate Continues(maxAttempts: Option<int32>, attempts: nat)
  {
    maxAttempts.None? || attempts < maxAttempts.value
  }

  /**
   * The loop after `attempts` failed runs. Every earlier run failed, so the
   * next run's outcome is `outcomes[attempts]`; `err` says whether an error
   * was recorded. `None` when the outcomes run out before the loop ends: the
   * task would run again.
   */
  function Loop(maxAttempts: Option<int32>, sleepMillis: Option<int32>, outcomes: seq<Attempt>, attempts: nat, err: bool): (r: Option<LoopEnd>)
    requires attempts <= |outcomes|
    ensures r.Some? ==> 1 <= r.value.runs <= |outcomes| - attempts
    ensures r.Some? ==> forall j | attempts <= j < attempts + r.value.runs - 1 :: outcomes[j] == Fail
    ensures r.Some? && 1 < r.value.runs ==> Continues(maxAttempts, attempts + r.value.runs - 1)
    ensures r.Some? ==> (r.value.succeeded <==> outcomes[attempts + r.value.runs - 1] == Ok)
    ensures r.Some? && !r.value.succeeded ==> !Continues(maxAttempts, attempts + r.value.runs)
    ensures r.Some? ==> |r.value.sleeps| == (if r.value.succeeded then r.value.runs - 1 else r.value.runs)
    ensures r.Some? ==> forall i | 0 <= i < |r.value.sleeps| :: r.value.sleeps[i] == sleepMillis.GetOr(DefaultSleepMillis)
    ensures r.Some? ==> (r.value.errorLogged <==> err || 1 < r.value.runs || !r.value.succeeded)
    decreases |outcomes| - attempts
  {
    if attempts == |outcomes| then
      None
    else if outcomes[attempts] == Ok then
      Some(LoopEnd(1, [], true, err))
    else
      var sleep := sleepMillis.GetOr(DefaultSleepMillis);
      if !Continues(maxAttempts, attempts + 1) then
        Some(LoopEnd(1, [sleep], false, true))
      else
        var rest := Loop(maxAttempts, sleepMillis, outcomes, attempts + 1, true);
        if rest.None? then
          None
        else
          Some(rest.value.(runs := rest.value.runs + 1, sleeps := [sleep] + rest.value.sleeps))
  }

  /** What the worker does for one task, from its first run. */
  function RunTask(maxAttempts: Option<int32>, sleepMillis: Option<int32>, outcomes: seq<Attempt>): (r: Option<LoopEnd>)
    ensures r.Some? ==> 1 <= r.value.runs <= |outcomes|
    ensures r.Some? ==> (r.value.succeeded <==> outcomes[r.value.runs - 1] == Ok)
    ensures r.Some? ==> (r.value.errorLogged <==> 1 < r.value.runs || !r.value.succeeded)
  {
    Loop(maxAttempts, sleepMillis, outcomes, 0, false)
  }

  /** The error line is logged iff some run failed, even when a later run succeeded. */
  lemma ErrorLoggedIffSomeRunFailed(maxAttempts: Option<int32>, sleepMillis: Option<int32>, outcomes: seq<Attempt>)
    requires RunTask(maxAttempts, sleepMillis, outcomes).Some?
    ensures var e := RunTask(maxAttempts, sleepMillis, outcomes).value;
      e.errorLogged <==> Fail in outcomes[..e.runs]
  {

  }

  /** `n` copies of `x`. */
  function Repeat<T>(x: T, n: nat): (s: seq<T>)
    ensures |s| == n
    ensures forall i | 0 <= i < n :: s[i] == x
  {
    if n == 0 then [] else [x] + Repeat(x, n - 1)
  }

  /** The number of runs the loop allows: `None` for no limit, otherwise `max(1, maxAttempts)`. */
  function Budget(maxAttempts: Option<int32>): (b: Option<nat>)
    ensures b.Some? ==> 1 <= b.value
  {
    match maxAttempts
    case None => None
    case Some(n) => Some(Max(1, n))
  }

  /**
   * Independent description of the run the loop ends with: every earlier run
   * failed, and run `k` succeeds within the budget or is the budget's last run.
   */
  predicate LastRun(maxAttempts: Option<int32>, outcomes: seq<Attempt>, k: nat)
  {
    && k < |outcomes|
    && (forall j | 0 <= j < k :: outcomes[j] == Fail)
    && match Budget(maxAttempts)
       case None => outcomes[k] == Ok
       case Some(b) => k < b && (outcomes[k] == Ok || k == b - 1)
  }

  /** The loop's result when it ends at run `k`, counted from 0. */
  function Ending(sleepMillis: Option<int32>, outcomes: seq<Attempt>, k: nat): (e: LoopEnd)
    requires k < |outcomes|
  {
    var failures := if outcomes[k] == Ok then k else k + 1;
    LoopEnd(k + 1, Repeat(sleepMillis.GetOr(DefaultSleepMillis), failures), outcomes[k] == Ok, 0 < failures)
  }

  /** The run the reference names as the last one ends the loop. */
  lemma LoopFinalRun(maxAttempts: Option<int32>, sleepMillis: Option<int32>, outcomes: seq<Attempt>, k: nat)
    requires LastRun(maxAttempts, outcomes, k)
    ensures var e := Ending(sleepMillis, outcomes, k);
      Loop(maxAttempts, sleepMillis, outcomes, k, 0 < k) == Some(LoopEnd(1, e.sleeps[k..], e.succeeded, e.errorLogged))
  {
    var e := Ending(sleepMillis, outcomes, k);
    if outcomes[k] == Ok {
      assert e.sleeps[k..] == [];
    } else {
      assert !Continues(maxAttempts, k + 1);
      assert e.sleeps[k..] == [sleepMillis.GetOr(DefaultSleepMillis)];
    }
  }

  /** A run before the reference's last one fails and lets the loop go on to the next run. */
  lemma LoopEarlyRun(maxAttempts: Option<int32>, sleepMillis: Option<int32>, outcomes: seq<Attempt>, i: nat, k: nat)
    requires i < k && LastRun(maxAttempts, outcomes, k)
    requires var e := Ending(sleepMillis, outcomes, k);
      Loop(maxAttempts, sleepMillis, outcomes, i + 1, true)
      == Some(LoopEnd(e.runs - (i + 1), e.sleeps[i + 1..], e.succeeded, e.errorLogged))
    ensures var e := Ending(sleepMillis, outcomes, k);
      Loop(maxAttempts, sleepMillis, outcomes, i, 0 < i)
      == Some(LoopEnd(e.runs - i, e.sleeps[i..], e.succeeded, e.errorLogged))
  {
    var e := Ending(sleepMillis, outcomes, k);
    assert outcomes[i] == Fail;
    assert Continues(maxAttempts, i + 1);
    assert e.sleeps[i..] == [sleepMillis.GetOr(DefaultSleepMillis)] + e.sleeps[i + 1..];
  }

  lemma {:induction false} LoopFrom(maxAttempts: Option<int32>, sleepMillis: Option<int32>, outcomes: seq<Attempt>, i: nat, k: nat)
    requires i <= k && LastRun(maxAttempts, outcomes, k)
    ensures var e := Ending(sleepMillis, outcomes, k);
      Loop(maxAttempts, sleepMillis, outcomes, i, 0 < i)
      == Some(LoopEnd(e.runs - i, e.sleeps[i..], e.succeeded, e.errorLogged))
    decreases k - i
  {
    if i < k {
      LoopFrom(maxAttempts, sleepMillis, outcomes, i + 1, k);
      LoopEarlyRun(maxAttempts, sleepMillis, outcomes, i, k);
    } else {
      LoopFinalRun(maxAttempts, sleepMillis, outcomes, k);
    }
  }

  /** Soundness of the reference: if the loop can end at run `k`, it ends there, with this result. */
  lemma LoopCharacterised(maxAttempts: Option<int32>, sleepMillis: Option<int32>, outcomes: seq<Attempt>, k: nat)
    requires LastRun(maxAttempts, outcomes, k)
    ensures RunTask(maxAttempts, sleepMillis, outcomes) == Some(Ending(sleepMillis, outcomes, k))
  {
    LoopFrom(maxAttempts, sleepMillis, outcomes, 0, k);
  }

  /** Completeness of the reference: whenever the loop ends, it ends at a run the reference describes. */
  lemma LoopEndsAtLastRun(maxAttempts: Option<int32>, sleepMillis: Option<int32>, outcomes: seq<Attempt>)
    requires RunTask(maxAttempts, sleepMillis, outcomes).Some?
    ensures LastRun(maxAttempts, outcomes, RunTask(maxAttempts, sleepMillis, outcomes).value.runs - 1)
  {

  }

  /** The loop ends exactly when the outcomes contain a run the reference describes. */
  lemma TerminatesIff(maxAttempts: Option<int32>, sleepMillis: Option<int32>, outcomes: seq<Attempt>)
    ensures RunTask(maxAttempts, sleepMillis, outcomes).Some? <==> exists k: nat :: LastRun(maxAttempts, outcomes, k)
  {
    if RunTask(maxAttempts, sleepMillis, outcomes).Some? {
      LoopEndsAtLastRun(maxAttempts, sleepMillis, outcomes);
    }
    if k: nat :| LastRun(maxAttempts, outcomes, k) {
      LoopCharacterised(maxAttempts, sleepMillis, outcomes, k);
    }
  }

  /**
   * A task that always fails runs `max(1, n)` times, sleeps after every run
   * including the last, and logs its error.
   */
  lemma AlwaysFailingRuns(n: int32, sleepMillis: Option<int32>, outcomes: seq<Attempt>)
    requires forall j | 0 <= j < |outcomes| :: outcomes[j] == Fail
    requires Max(1, n) <= |outcomes|
    ensures RunTask(Some(n), sleepMillis, outcomes)
      == Some(LoopEnd(Max(1, n), Repeat(sleepMillis.GetOr(DefaultSleepMillis), Max(1, n)), false, true))
  {
    LoopCharacterised(Some(n), sleepMillis, outcomes, Max(1, n) - 1);
  }

  /** A limit of zero and a limit of one both mean exactly one run. */
  lemma ZeroAndOneAttemptsAgree(sleepMillis: Option<int32>, outcomes: seq<Attempt>)
    ensures RunTask(Some(0), sleepMillis, outcomes) == RunTask(Some(1), sleepMillis, outcomes)
  {

  }

  /**
   * The loop stops at the first success when it lies within the budget: it ran
   * once per failure plus once, slept once per failure, and logs an error iff
   * some run before failed.
   */
  lemma StopsAtFirstSuccess(maxAttempts: Option<int32>, sleepMillis: Option<int32>, outcomes: seq<Attempt>, k: nat)
    requires k < |outcomes| && outcomes[k] == Ok
    requires forall j | 0 <= j < k :: outcomes[j] == Fail
    requires Budget(maxAttempts).None? || k < Budget(maxAttempts).value
    ensures RunTask(maxAttempts, sleepMillis, outcomes)
      == Some(LoopEnd(k + 1, Repeat(sleepMillis.GetOr(DefaultSleepMillis), k), true, 0 < k))
  {
    LoopCharacterised(maxAttempts, sleepMillis, outcomes, k);
  }

  /** The position of the first success. */
  function FirstOk(outcomes: seq<Attempt>): (k: nat)
    requires Ok in outcomes
    ensures k < |outcomes| && outcomes[k] == Ok
    ensures forall j | 0 <= j < k :: outcomes[j] == Fail
  {
    if outcomes[0] == Ok then 0 else 1 + FirstOk(outcomes[1..])
  }

  /** Without a limit the loop ends iff some run succeeds, and then at the first success. */
  lemma UnlimitedEndsOnlyOnSuccess(sleepMillis: Option<int32>, outcomes: seq<Attempt>)
    ensures RunTask(None, sleepMillis, outcomes).Some? <==> Ok in outcomes
    ensures RunTask(None, sleepMillis, outcomes).Some? ==>
      var e := RunTask(None, sleepMillis, outcomes).value;
      e.succeeded && Ok !in outcomes[..e.runs - 1]
  {
    if Ok in outcomes {
      LoopCharacterised(None, sleepMillis, outcomes, FirstOk(outcomes));
    }
  }
}

=== FILE: wrappers.dfy ===
/** Optional values: the model's stand-in for a nullable Java reference. */
module Wrappers {

  /** `None` plays the part of `null`. */
  datatype Option<+T> = None | Some(value: T) {

    /** The wrapped value, or `default` when there is none. */
    function GetOr(default: T): (r: T)
      ensures Some? ==> r == value
      ensures None? ==> r == default
    {
      match this
      case Some(v) => v
      case None => default
    }
  }
}
